=== FILE: README.md ===
# Accessibility report pipeline — a Dafny model

This project models the part of the accessibility scanner that has domain
logic. The scanner fetches a page, runs the axe-core rule engine over it,
and turns the rule-engine violations into a scored report. The modelled
pieces are:

- the client mapper (`src/lib/utils/mappers.ts`). It maps impact labels to
  severities, computes the weighted 0–100 score, turns each violation into an
  `Issue` with id `issue-<i>`, folds the recommendations into a map, and
  assembles the `ScanResult`;
- `analyzeSite` in `src/lib/api.ts`. Its helpers at lines 6-53 are
  character-for-character copies of `mappers.ts` lines 3-50, so the model
  defines them once, in `Mappers`. The assembly at lines 68-82 is written out
  again in `Api.AnalyzeSite` and proved equal to the mapper's;
- the serverless function's score formula, `max(0, 100 - 5n)`, and its
  mapping from violations to database rows
  (`supabase/functions/analyze-accessibility/index.ts`);
- the readers of a result in the views:
  - the compliance ladder, which `ReportDownload.tsx` and `SummarySection.tsx`
    carry in identical text and the model defines once in `Compliance`;
  - the gauge colour;
  - the per-severity buckets and the sections rendered from them;
  - the join of AI texts by issue id;
  - the badge colour of a stored issue;
  - the text content of the PDF report.

Everything is a pure function over immutable datatypes (`types.dfy` mirrors
`src/lib/types.ts`). Modules follow the source files:

| file | module | source |
|---|---|---|
| wrappers.dfy | Wrappers | `Option` for JavaScript's undefined/null |
| text.dfy | Text | ASCII case mapping, prefixes, decimal rendering of numbers |
| types.dfy | Types | src/lib/types.ts |
| mappers.dfy | Mappers | src/lib/utils/mappers.ts |
| api.dfy | Api | src/lib/api.ts |
| analyze_accessibility.dfy | AnalyzeAccessibility | supabase/functions/analyze-accessibility/index.ts |
| compliance.dfy | Compliance | the ladder of ReportDownload.tsx and SummarySection.tsx |
| accessibility_score.dfy | AccessibilityScore | src/components/AccessibilityScore.tsx |
| severity_buckets.dfy | SeverityBuckets | the `filter` by severity shared by the views |
| results_dashboard.dfy | ResultsDashboard | src/components/ResultsDashboard.tsx |
| issues_section.dfy | IssuesSection | src/components/accessibility/IssuesSection.tsx |
| summary_section.dfy | SummarySection | src/components/accessibility/SummarySection.tsx |
| issues_list.dfy | IssuesList | src/components/IssuesList.tsx |
| report_download.dfy | ReportDownload | src/components/ReportDownload.tsx |

## Behaviour worth knowing

- The compliance labels are the Spanish strings "Excelente", "Bueno",
  "Aceptable", "Mejorable" and "Crítico".
- The summary is not recounted from the issues. It is copied from the
  response's `violations_by_impact`: `high` is the `serious` count,
  `medium` is `moderate` and `low` is `minor`, each defaulting to 0. Critical
  violations are never counted, so `high + medium + low == |issues|` is not
  promised. `Mappers.SummaryIsNotRecounted` gives an input where it fails.
- An issue's `wcagReference` is copied verbatim from the violation's
  `wcag_reference`. Only the serverless function derives a reference from
  the tags, by taking the first tag that starts with `wcag`.
- Recommendations are keyed by their `issue` field; a later entry with the
  same `issue` replaces an earlier one.
- Nothing is deduplicated or re-sorted. Issues keep the violations' order.
- The serverless function's score ignores impact: 5 points per violation.
- An empty impact string is not special-cased. It gets severity low and
  penalty 2, like any unknown label. A missing (undefined or null) impact
  is different: `impact.toLowerCase()` throws, so the mapper fails instead
  of returning a result (see "Left out").

## Model

| member | source | states |
|---|---|---|
| Types.ParseImpact | src/lib/types.ts:2 | a string names an impact exactly when it equals that impact's lower-case label |
| Mappers.MapSeverity | src/lib/utils/mappers.ts:3-14 | the severity is the collapse of the impact named by the lower-cased label (critical/serious high, moderate medium, minor low), and low for every other string |
| Mappers.MapSeverityCaseInsensitive | src/lib/utils/mappers.ts:4 | labels equal up to case get the same severity |
| Mappers.MapSeverityOfLabels | src/lib/utils/mappers.ts:5-13 | each impact's label, in lower or upper case, maps to its collapsed severity; only critical and serious give high |
| Mappers.Penalty | src/lib/utils/mappers.ts:18-26 | a violation costs 15/10/5/2 by its exact impact label and 2 for any other label; always between 2 and 15 |
| Mappers.PenaltyIsCaseSensitive | src/lib/utils/mappers.ts:26 | "CRITICAL" is high severity but costs only the default 2 points, while "critical" costs 15 |
| Mappers.TotalPenalty | src/lib/utils/mappers.ts:25-27 | the reduced penalty of n violations lies between 2n and 15n |
| Mappers.TotalPenaltyAppend | src/lib/utils/mappers.ts:25-27 | the penalty of two lists joined is the sum of their penalties |
| Mappers.TotalPenaltyPermutation | src/lib/utils/mappers.ts:25-27 | lists with the same elements (as multisets) have the same penalty |
| Mappers.TotalPenaltyUniform | src/lib/utils/mappers.ts:25-27 | n violations that share one label cost n times that label's penalty |
| Mappers.CalculateScore | src/lib/utils/mappers.ts:16-30 | the score is 100 minus the total penalty when that penalty is below 100 and 0 otherwise; it lies in [0,100] and is 100 exactly for no violations |
| Mappers.ScorePermutationInvariant | src/lib/utils/mappers.ts:16-30 | reordering the violations leaves the score unchanged |
| Mappers.ScoreNeverRises | src/lib/utils/mappers.ts:25-29 | appending or prepending violations never raises the score |
| Mappers.ScoreExamples | src/lib/utils/mappers.ts:18-29 | one critical violation scores 85; ten minor ones score 80 |
| Mappers.ScoreSaturatesAtSevenCritical | src/lib/utils/mappers.ts:18-29 | seven or more critical violations score 0 |
| Mappers.ScoreCountBounds | src/lib/utils/mappers.ts:18-29 | 50 or more violations of any impact score 0; 6 or fewer always score at least 10 |
| Mappers.IssueId | src/lib/utils/mappers.ts:34 | the id is "issue-" followed by at least one decimal digit, only digits, with no leading zero unless the index is 0, and those digits read back as the index |
| Mappers.IssueIdInjective | src/lib/utils/mappers.ts:34 | distinct indices give distinct ids |
| Mappers.SampleMarkup | src/lib/utils/mappers.ts:37 | the sample is the first node's html when the first node exists and its html is non-empty, otherwise "No hay detalles disponibles"; it is never empty |
| Mappers.IssueDescription | src/lib/utils/mappers.ts:36-37 | the description starts "Encontrado en <n> elemento", has the plural "s" next exactly when n > 1, and ends with the sample markup |
| Mappers.DescriptionEmbedsCount | src/lib/utils/mappers.ts:36 | for a non-negative node count, the digits after "Encontrado en " read back as that count |
| Mappers.FormatViolations | src/lib/utils/mappers.ts:32-42 | one issue per violation at the same index: id issue-i, title the description, severity from the impact, WCAG reference and solution copied; ids pairwise distinct |
| Mappers.FormatRecommendations | src/lib/utils/mappers.ts:44-50 | the keys are exactly the recommendations' issue values |
| Mappers.FormatRecommendationsLastWins | src/lib/utils/mappers.ts:44-50 | every key maps to the recommendation of the last entry carrying that key |
| Mappers.RecommendationLastWriteWins | src/lib/utils/mappers.ts:46-48 | an entry not overwritten by a later one with the same key keeps its recommendation in the map |
| Mappers.MapScanResultFromApi | src/lib/utils/mappers.ts:52-68 | score and issues come from the same violations: the score is their weighted score, issue i has id "issue-i", the violation's title, description text, mapped severity, verbatim WCAG reference and fix; summary copied from serious/moderate/minor with default 0; recommendation keys are the issue values and each key holds its last entry's text |
| Mappers.SummaryIsNotRecounted | src/lib/utils/mappers.ts:61-65 | a response with one critical violation and no counts yields one high issue and a summary totalling 0 |
| Mappers.SingleImageDescription | src/lib/utils/mappers.ts:36-37 | a violation found on one `<img>` node is described as "Encontrado en 1 elemento." followed by the indented markup |
| Mappers.EndToEndScore | src/lib/utils/mappers.ts:52-68 | one critical violation scores 85 and yields one issue |
| Mappers.EndToEndIssue | src/lib/utils/mappers.ts:52-68 | one critical violation on one `<img>` yields issue "issue-0" of high severity, its reference copied and the singular description with the markup |
| Api.AnalyzeSite | src/lib/api.ts:68-82 | one issue per violation; score 100 exactly when there are no violations; summary copied from serious/moderate/minor with default 0 |
| Api.AnalyzeSiteAgreesWithMapper | src/lib/api.ts:68-82 | the assembly after the POST builds the same scan result as the mapper for every response |
| AnalyzeAccessibility.EdgeScore | supabase/functions/analyze-accessibility/index.ts:62-67 | the stored score lies in [0,100], is a multiple of 5, is 100 exactly for no violations and 0 exactly for 20 or more |
| AnalyzeAccessibility.EdgeScoreIgnoresImpact | supabase/functions/analyze-accessibility/index.ts:66 | two violation lists of equal length get the same score, whatever the impacts |
| AnalyzeAccessibility.EdgeScoreStep | supabase/functions/analyze-accessibility/index.ts:64-67 | one more violation lowers the score by 5, or to 0, and never raises it |
| AnalyzeAccessibility.FirstWcagTag | supabase/functions/analyze-accessibility/index.ts:84 | the result is the first tag starting with lower-case "wcag", and is absent exactly when no tag does |
| AnalyzeAccessibility.WcagCriterion | supabase/functions/analyze-accessibility/index.ts:84 | the criterion is present exactly when some tag starts with "wcag"; it is then that first tag upper-cased, starting "WCAG" |
| AnalyzeAccessibility.HtmlElement | supabase/functions/analyze-accessibility/index.ts:85 | the first node's html, or null when there is no node or its html is empty |
| AnalyzeAccessibility.RowSeverity | supabase/functions/analyze-accessibility/index.ts:80 | the impact when present and non-empty, otherwise "error" |
| AnalyzeAccessibility.IssueRows | supabase/functions/analyze-accessibility/index.ts:78-86 | one row per violation, in order, all with the same scan id; message, impact and recommendation come from help, description and helpUrl |
| AnalyzeAccessibility.IssueInsert | supabase/functions/analyze-accessibility/index.ts:77-89 | rows are inserted exactly when there is at least one violation, and the rows inserted are the mapped rows of `IssueRows`, one per violation in order |
| Compliance.GetComplianceLevel | src/components/ReportDownload.tsx:140-146 | the level is the one whose band (>=90, [80,90), [70,80), [60,70), below 60) holds the score |
| Compliance.BandsExclusive | src/components/accessibility/SummarySection.tsx:12-18 | no score lies in two bands, so exactly one label applies |
| Compliance.LevelMonotone | src/components/ReportDownload.tsx:141-145 | a higher score never gets a lower-ranked level |
| Compliance.LabelsDistinct | src/components/accessibility/SummarySection.tsx:13-17 | the five labels are distinct strings |
| Compliance.LabelNamesLevel | src/components/accessibility/SummarySection.tsx:82 | comparing a level's label with "Crítico" or "Mejorable" identifies exactly that level |
| Compliance.LevelExamples | src/components/accessibility/SummarySection.tsx:12-18 | 95, 85, 75, 65 and 10 read Excelente, Bueno, Aceptable, Mejorable and Crítico |
| AccessibilityScore.GetColor | src/components/AccessibilityScore.tsx:9-13 | green exactly from 90, amber exactly in [70,90), red exactly below 70 |
| AccessibilityScore.ColorMonotone | src/components/AccessibilityScore.tsx:10-12 | a higher score never gets a worse colour |
| AccessibilityScore.ColorMatchesCompliance | src/components/AccessibilityScore.tsx:9-13 | green exactly for Excelente, red exactly for Mejorable and Crítico |
| SeverityBuckets.Bucket | src/components/ResultsDashboard.tsx:72-76 | a bucket holds exactly the issues of its severity and is no longer than the list |
| SeverityBuckets.Positions | src/components/accessibility/IssuesSection.tsx:20-22 | the ascending positions of exactly the issues of one severity |
| SeverityBuckets.BucketInOrder | src/components/accessibility/IssuesSection.tsx:19-23 | the k-th issue of a bucket is the issue at the k-th position of that severity, so original order is kept |
| SeverityBuckets.BucketsCover | src/components/ResultsDashboard.tsx:73-75 | together the three buckets hold every issue exactly as often as the list does |
| SeverityBuckets.BucketsPartition | src/components/ResultsDashboard.tsx:73-75 | the three bucket sizes add up to the number of issues, and their multisets add up to the issues |
| SeverityBuckets.BucketsDisjoint | src/components/accessibility/IssuesSection.tsx:21-22 | no issue lies in two buckets |
| SeverityBuckets.BucketNonEmptyIffPresent | src/components/accessibility/IssuesSection.tsx:38 | a bucket is non-empty exactly when some issue has its severity |
| SeverityBuckets.NonEmptySections | src/components/accessibility/IssuesSection.tsx:37-38 | the severities rendered are exactly those with a non-empty bucket, in high, medium, low order |
| SeverityBuckets.Sections | src/components/ResultsDashboard.tsx:126-127 | the sections rendered hold their buckets, are non-empty, come in high, medium, low order, and cover every non-empty severity |
| SeverityBuckets.SectionsCoverIssues | src/components/ResultsDashboard.tsx:126-134 | every issue is rendered in the section of its own severity |
| ResultsDashboard.TotalIssuesFromResponse | src/components/ResultsDashboard.tsx:43 | the total is the sum of the serious, moderate and minor counts of the response; critical is not among them |
| ResultsDashboard.PriorityCounts | src/components/ResultsDashboard.tsx:95-105 | the summary card's badge counts are the bucket sizes and add up to the number of issues |
| ResultsDashboard.ResultText | src/components/ResultsDashboard.tsx:59 | the AI text of an index, or "" when that answer is missing or null |
| ResultsDashboard.AnalysisMap | src/components/ResultsDashboard.tsx:57-60 | the keys are exactly the issues' ids |
| ResultsDashboard.AnalysisJoin | src/components/ResultsDashboard.tsx:58-60 | with distinct ids, each issue's entry is the answer for its own index |
| ResultsDashboard.JoinAfterFormat | src/components/ResultsDashboard.tsx:50-60 | for the mapper's issues, entry issue-i holds the i-th answer |
| IssuesSection.HeadingWord | src/components/accessibility/IssuesSection.tsx:41 | "high" gives Alta, "medium" gives Media, any other key gives Baja |
| IssuesSection.HeadingWordOfSeverity | src/components/accessibility/IssuesSection.tsx:41 | each severity's key gives that severity's own adjective |
| IssuesSection.Groups | src/components/accessibility/IssuesSection.tsx:37-41 | one group per rendered section, headed "Problemas de Alta/Media/Baja Severidad", holding that non-empty bucket |
| SummarySection.VisibleRows | src/components/accessibility/SummarySection.tsx:48-74 | a severity row is shown exactly when its count is positive, in high, medium, low order |
| SummarySection.UrgentMessage | src/components/accessibility/SummarySection.tsx:82 | the label test ("Crítico" or "Mejorable") holds exactly when the level is Critico or Mejorable |
| SummarySection.UrgentIffBelowSeventy | src/components/accessibility/SummarySection.tsx:82-84 | the urgent sentence is shown exactly when the score is below 70 |
| SummarySection.ClosingSentence | src/components/accessibility/SummarySection.tsx:82-84 | the card closes with the urgent sentence exactly when the score is below 70, and with the review sentence otherwise |
| SummarySection.TotalIssuesIsRowSum | src/components/accessibility/SummarySection.tsx:22 | for non-negative counts, the total printed is 0 exactly when no severity row is shown |
| IssuesList.GetSeverityColor | src/components/IssuesList.tsx:21-33 | exact-case critical and serious give the error badge, moderate the warning badge, minor and every other string the secondary badge |
| IssuesList.BadgeFollowsSeverity | src/components/IssuesList.tsx:23-27 | for exact impact labels, the error badge goes with high severity and the warning badge with medium |
| IssuesList.BadgeIsCaseSensitive | src/components/IssuesList.tsx:29-31 | "CRITICAL" gets the default badge though the mapper rates it high |
| IssuesList.MissingImpactRowBadge | src/components/IssuesList.tsx:29-31 | a stored row whose violation had no impact reads "error" and gets the default badge |
| ReportDownload.Paragraphs | src/components/ReportDownload.tsx:92-95 | an issue item writes four paragraphs: its number followed by ". " and then exactly its title, then "Descripción: ", "Solución: " and "Referencia WCAG: " each followed by exactly the matching field; every other entry writes its one line |
| ReportDownload.CountLines | src/components/ReportDownload.tsx:64-72 | one count line per positive count, carrying that count, in high, medium, low order |
| ReportDownload.PlanSteps | src/components/ReportDownload.tsx:114-122 | one plan step per count line, same severity and count |
| ReportDownload.SeveritySection | src/components/ReportDownload.tsx:79-99 | nothing for an empty bucket; otherwise its title and its issues numbered 1..k in order |
| ReportDownload.SectionEntrySeverity | src/components/ReportDownload.tsx:80-95 | every entry of a severity section is its title or one of its items, and all of them belong to that severity |
| ReportDownload.DetailedAnalysisRank | src/components/ReportDownload.tsx:101-103 | entry k of the detailed analysis is a section title or an issue item, high while k is inside the high section, then medium, then low |
| ReportDownload.DetailedAnalysisOrdered | src/components/ReportDownload.tsx:101-103 | the detailed analysis holds only section titles and issue items, and for any two entries the later one is never of higher severity |
| ReportDownload.DetailedAnalysisSize | src/components/ReportDownload.tsx:101-103 | the detailed analysis has one entry per issue plus one title per non-empty section |
| ReportDownload.Report | src/components/ReportDownload.tsx:52-122 | the report opens with title, date, score and level; after the count lines comes the "Análisis Detallado" heading, then exactly the detailed analysis (high, medium, low sections), then "Plan de Acción Recomendado", the plan intro and the plan steps last; its length is nine fixed entries plus a count line and a plan step per positive count, one item per issue and one title per non-empty section |
| ReportDownload.ReportHeadParts | src/components/ReportDownload.tsx:52-76 | before the detailed analysis there is no plan step and no section title, and every count line is one of the summary's |
| ReportDownload.ActionPlanParts | src/components/ReportDownload.tsx:111-122 | the action plan holds no count line and no section title, and every step is one of the summary's |
| ReportDownload.ReportParts | src/components/ReportDownload.tsx:52-122 | every count line, plan step and section title of the report comes from its own block |
| ReportDownload.CountGatedLines | src/components/ReportDownload.tsx:114-122 | a severity's summary line and its plan step are in the report exactly when its count is positive |
| ReportDownload.SectionTitleInSection | src/components/ReportDownload.tsx:79-86 | a severity section holds a title only for its own severity, and only when its bucket is non-empty |
| ReportDownload.SectionTitleGated | src/components/ReportDownload.tsx:79-103 | a severity's section title is in the report exactly when some issue has that severity |
| ReportDownload.PlanStartsAtTwoWithoutHigh | src/components/ReportDownload.tsx:115-118 | step numbers are fixed, so with no high count and some medium ones the plan starts with "2." |

## Left out

- HTTP, network and persistence are not modelled: the axios posts in `src/lib/api.ts`, and the fetch, CORS handling, `serve` and Supabase reads and writes of the serverless function. The model starts from the response or violation list those calls produce.
- The axe-core run and the DOM parser are foreign libraries. Their output is an input to the model.
- The AI text service is an external call. Its per-issue answers are a given sequence `results`. It catches its own errors and returns null, so no failure path reaches the join.
- The PDF layout is not modelled: font sizes, positions, line splitting, page breaks and the page footer. Only the order and text of the written paragraphs are modelled. The date is a parameter, because it comes from the clock and the locale.
- `src/lib/api/accessibilityApi.ts` only delegates to `mapScanResultFromApi`. `src/pages/Index.tsx` is polling and async state. `URLInput.tsx` relies on the platform `URL` constructor. `DocumentAnalyzer.tsx` and `AnalysisHeader.tsx` are UI plus a simulated timer. None of these is modelled.
- Mappers.MapSeverity: `toLowerCase` is modelled on the ASCII letters only. All labels it compares against are ASCII, but full Unicode lower-casing is not modelled.
- AnalyzeAccessibility.WcagCriterion: `toUpperCase` is modelled on the ASCII letters only. A non-ASCII tag character (such as "ß" becoming "SS") would upper-case differently in JavaScript.
- Mappers.Penalty: JavaScript prototype lookups are not modelled. For example, an impact of "constructor" finds a function rather than a number. The model treats every label other than the four as costing 2.
- Mappers.FormatRecommendations: the key "__proto__" is not modelled. On a plain JavaScript object, assigning a string to it is ignored. The model stores it like any other key.
- Numbers are integers: node counts, summary counts and scores are `int`. Non-integer, NaN and infinite JSON numbers are not modelled, and integers render in plain decimal as `${n}` does for safe integers.
- A summary count field missing from the response is `None`, and `|| 0` turns it into 0. A null count behaves the same and is folded into `None`.
- The scan id of the serverless function comes from the request body. It is modelled as a string.
- Mappers.MapSeverity: a missing (undefined or null) impact is not modelled. In the source `impact.toLowerCase()` throws a TypeError on it, so `mapScanResultFromApi` throws rather than returning a scan result. The model's impact is always a string.
- Mappers.MapScanResultFromApi: the response is taken to carry every field `src/lib/types.ts` declares. In the source a missing `analysis.violations` (mappers.ts:25), `affected_nodes` (mappers.ts:37), `recommendations` (mappers.ts:46) or `summary.violations_by_impact` (mappers.ts:62) makes `mapScanResultFromApi` throw a TypeError, and a missing `nodes` makes the description read "Encontrado en undefined elemento.". None of these paths is modelled.

=== FILE: accessibility_score.dfy ===
/** The colour of the circular score gauge (src/components/AccessibilityScore.tsx). */
module AccessibilityScore {
  import Compliance

  datatype Color = Green | Amber | Red {
    function Hex(): string {
      match this
      case Green => "#22C55E"
      case Amber => "#F59E0B"
      case Red => "#EF4444"
    }

    /** 0 for the worst band up to 2 for the best. */
    function Rank(): nat {
      match this
      case Red => 0
      case Amber => 1
      case Green => 2
    }
  }

  function GetColor(score: int): (c: Color)
    ensures c == Green <==> score >= 90
    ensures c == Amber <==> 70 <= score < 90
    ensures c == Red <==> score < 70
  {
    if score >= 90 then Green
    else if score >= 70 then Amber
    else Red
  }

  /** A higher score never gets a worse colour. */
  lemma ColorMonotone(s: int, t: int)
    requires s <= t
    ensures GetColor(s).Rank() <= GetColor(t).Rank()
  {
  }

  /**
   * The gauge against the compliance ladder: green exactly for Excelente,
   * red exactly for Mejorable and Crítico.
   */
  lemma ColorMatchesCompliance(score: int)
    ensures GetColor(score) == Green <==> Compliance.GetComplianceLevel(score) == Compliance.Excelente
    ensures GetColor(score) == Red <==>
              Compliance.GetComplianceLevel(score) in {Compliance.Mejorable, Compliance.Critico}
  {
  }
}

=== FILE: analyze_accessibility.dfy ===
/**
 * The pure fragments of the serverless scan function
 * (supabase/functions/analyze-accessibility/index.ts): its score formula and
 * the shaping of one database row per rule-engine violation. Fetching the
 * page, running the rule engine and writing to the database are not part
 * of this model; the violation list is an input.
 */
module AnalyzeAccessibility {
  import opened Wrappers
  import opened Text

  /** One element the rule engine flagged; only its markup is read. */
  datatype AxeNode = AxeNode(html: string)

  /** One rule-engine violation; `impact` may be absent. */
  datatype AxeViolation = AxeViolation(
    impact: Option<string>,
    help: string,
    description: string,
    helpUrl: string,
    tags: seq<string>,
    nodes: seq<AxeNode>)

  /** One row of the issues table. */
  datatype IssueRow = IssueRow(
    scanId: string,
    severity: string,
    message: string,
    impact: string,
    recommendation: string,
    wcagCriterion: Option<string>,
    htmlElement: Option<string>)

  const MaxScore: int := 100
  const DeductPerViolation: int := 5

  /** The stored score: 5 points per violation, whatever its impact, floored at 0. */
  function EdgeScore(violations: seq<AxeViolation>): (score: int)
    ensures 0 <= score <= 100
    ensures score == 100 <==> |violations| == 0
    ensures score == 0 <==> |violations| >= 20
    ensures score % 5 == 0
  {
    var s := MaxScore - |violations| * DeductPerViolation;
    if s < 0 then 0 else s
  }

  /** The score depends on the number of violations only. */
  lemma EdgeScoreIgnoresImpact(a: seq<AxeViolation>, b: seq<AxeViolation>)
    requires |a| == |b|
    ensures EdgeScore(a) == EdgeScore(b)
  {
  }

  /** Each further violation costs 5 points until the score reaches 0. */
  lemma EdgeScoreStep(vs: seq<AxeViolation>, v: AxeViolation)
    ensures EdgeScore(vs + [v]) == if EdgeScore(vs) >= 5 then EdgeScore(vs) - 5 else 0
    ensures EdgeScore(vs + [v]) <= EdgeScore(vs)
  {
  }

  /** The first tag that starts with the lower-case prefix "wcag", as `find` returns it. */
  function FirstWcagTag(tags: seq<string>): (r: Option<string>)
    ensures r.None? <==> forall k :: 0 <= k < |tags| ==> !StartsWith(tags[k], "wcag")
    ensures r.Some? ==> exists k :: 0 <= k < |tags| && tags[k] == r.value && StartsWith(tags[k], "wcag")
                                    && forall j :: 0 <= j < k ==> !StartsWith(tags[j], "wcag")
  {
    if |tags| == 0 then None
    else if StartsWith(tags[0], "wcag") then Some(tags[0])
    else
      var r := FirstWcagTag(tags[1..]);
      assert r.Some? ==> exists k :: 0 <= k < |tags[1..]| && tags[1..][k] == r.value && StartsWith(tags[1..][k], "wcag")
                                    && forall j :: 0 <= j < k ==> !StartsWith(tags[1..][j], "wcag");
      r
  }

  /** Upper-casing a tag that starts with "wcag" gives one that starts with "WCAG". */
  lemma UpperWcagPrefix(t: string)
    requires StartsWith(t, "wcag")
    ensures StartsWith(ToUpper(t), "WCAG")
  {
    assert ToUpper(t)[..4] == "WCAG" by {
      assert t[0] == 'w' && t[1] == 'c' && t[2] == 'a' && t[3] == 'g';
    }
  }

  /** The first tag that begins with "wcag", upper-cased; nothing when there is no such tag or it upper-cases to the empty string. */
  function WcagCriterion(tags: seq<string>): (r: Option<string>)
    ensures r.Some? <==> exists k :: 0 <= k < |tags| && StartsWith(tags[k], "wcag")
    ensures r.Some? ==> StartsWith(r.value, "WCAG") && r == Some(ToUpper(FirstWcagTag(tags).value))
  {
    match FirstWcagTag(tags)
    case None => None
    case Some(t) =>
      UpperWcagPrefix(t);
      var u := ToUpper(t);
      if u == "" then None else Some(u)
  }

  /** The markup of the first affected node; nothing when there is no node or its markup is empty. */
  function HtmlElement(nodes: seq<AxeNode>): (r: Option<string>)
    ensures r.None? <==> |nodes| == 0 || nodes[0].html == ""
    ensures r.Some? ==> r.value == nodes[0].html
  {
    if |nodes| > 0 && nodes[0].html != "" then Some(nodes[0].html) else None
  }

  /** The impact reported by axe, falling back to "error" when it is missing or empty. */
  function RowSeverity(impact: Option<string>): (s: string)
    ensures s != ""
    ensures impact.Some? && impact.value != "" ==> s == impact.value
    ensures impact.None? || impact.value == "" ==> s == "error"
  {
    if impact.Some? && impact.value != "" then impact.value else "error"
  }

  function ToIssueRow(scanId: string, v: AxeViolation): IssueRow {
    IssueRow(
      scanId := scanId,
      severity := RowSeverity(v.impact),
      message := v.help,
      impact := v.description,
      recommendation := v.helpUrl,
      wcagCriterion := WcagCriterion(v.tags),
      htmlElement := HtmlElement(v.nodes))
  }

  /** One row per violation, in order, all for the same scan. */
  function IssueRows(scanId: string, violations: seq<AxeViolation>): (rows: seq<IssueRow>)
    ensures |rows| == |violations|
    ensures forall i :: 0 <= i < |rows| ==>
              && rows[i].scanId == scanId
              && rows[i].severity == RowSeverity(violations[i].impact)
              && rows[i].message == violations[i].help
              && rows[i].impact == violations[i].description
              && rows[i].recommendation == violations[i].helpUrl
              && rows[i].wcagCriterion == WcagCriterion(violations[i].tags)
              && rows[i].htmlElement == HtmlElement(violations[i].nodes)
  {
    seq(|violations|, i requires 0 <= i < |violations| => ToIssueRow(scanId, violations[i]))
  }

  /** The rows inserted for a scan; nothing is inserted when there are no violations. */
  function IssueInsert(scanId: string, violations: seq<AxeViolation>): (insert: Option<seq<IssueRow>>)
    ensures insert.None? <==> |violations| == 0
    ensures insert.Some? ==> |insert.value| == |violations| > 0
    ensures insert.Some? ==> insert.value == IssueRows(scanId, violations)
  {
    if |violations| > 0 then Some(IssueRows(scanId, violations)) else None
  }
}

=== FILE: api.dfy ===
/**
 * The older entry point of the front end (src/lib/api.ts). Its helpers are
 * character-for-character the mapper's, so they are the Mappers functions;
 * the assembly after the POST is written out again here. The POST itself is
 * not modelled: the model starts from the response it returned.
 */
module Api {
  import opened Wrappers
  import opened Types
  import Mappers

  /** The scan result `analyzeSite` builds from a successful response. */
  function AnalyzeSite(response: ApiResponse): (r: ScanResult)
    ensures |r.issues| == |response.data.analysis.violations|
    ensures r.score == 100 <==> |response.data.analysis.violations| == 0
    ensures var counts := response.data.summary.violationsByImpact;
            r.summary == Summary(counts.serious.GetOr(0), counts.moderate.GetOr(0), counts.minor.GetOr(0))
  {
    var violations := response.data.analysis.violations;
    var recommendations := response.data.analysis.recommendations;
    var counts := response.data.summary.violationsByImpact;
    ScanResult(
      score := Mappers.CalculateScore(violations),
      issues := Mappers.FormatViolations(violations),
      summary := Summary(
        high := counts.serious.GetOr(0),
        medium := counts.moderate.GetOr(0),
        low := counts.minor.GetOr(0)),
      recommendations := Mappers.FormatRecommendations(recommendations))
  }

  /** The older entry point and the mapper build the same scan result. */
  lemma AnalyzeSiteAgreesWithMapper(response: ApiResponse)
    ensures AnalyzeSite(response) == Mappers.MapScanResultFromApi(response)
  {
  }
}

=== FILE: compliance.dfy ===
/**
 * The compliance-level ladder that the PDF report and the summary card
 * both print (src/components/ReportDownload.tsx and
 * src/components/accessibility/SummarySection.tsx carry the same text).
 */
module Compliance {

  datatype Level = Excelente | Bueno | Aceptable | Mejorable | Critico {
    /** The label the views print. */
    function Label(): string {
      match this
      case Excelente => "Excelente"
      case Bueno => "Bueno"
      case Aceptable => "Aceptable"
      case Mejorable => "Mejorable"
      case Critico => "Crítico"
    }

    /** 0 for the worst level up to 4 for the best. */
    function Rank(): nat {
      match this
      case Critico => 0
      case Mejorable => 1
      case Aceptable => 2
      case Bueno => 3
      case Excelente => 4
    }
  }

  /** The score band of each level; every lower bound is inclusive. */
  predicate InBand(score: int, level: Level) {
    match level
    case Excelente => 90 <= score
    case Bueno => 80 <= score < 90
    case Aceptable => 70 <= score < 80
    case Mejorable => 60 <= score < 70
    case Critico => score < 60
  }

  function GetComplianceLevel(score: int): (level: Level)
    ensures InBand(score, level)
  {
    if score >= 90 then Excelente
    else if score >= 80 then Bueno
    else if score >= 70 then Aceptable
    else if score >= 60 then Mejorable
    else Critico
  }

  /** The bands do not overlap, so exactly one level applies to every score. */
  lemma BandsExclusive(score: int, a: Level, b: Level)
    requires InBand(score, a) && InBand(score, b)
    ensures a == b
  {
  }

  /** A higher score never gets a worse level. */
  lemma LevelMonotone(s: int, t: int)
    requires s <= t
    ensures GetComplianceLevel(s).Rank() <= GetComplianceLevel(t).Rank()
  {
  }

  /** The five labels are distinct strings. */
  lemma LabelsDistinct(a: Level, b: Level)
    requires a != b
    ensures a.Label() != b.Label()
  {
    var la, lb := a.Label(), b.Label();
    assert la[0] != lb[0];
  }

  /** Comparing a level's label with "Crítico" or "Mejorable" identifies that level. */
  lemma LabelNamesLevel(level: Level)
    ensures level.Label() == "Crítico" <==> level == Critico
    ensures level.Label() == "Mejorable" <==> level == Mejorable
  {
    if level != Critico {
      LabelsDistinct(level, Critico);
    }
    if level != Mejorable {
      LabelsDistinct(level, Mejorable);
    }
  }

  /** The worked examples: 95, 85, 75, 65 and 10. */
  lemma LevelExamples()
    ensures GetComplianceLevel(95).Label() == "Excelente"
    ensures GetComplianceLevel(85).Label() == "Bueno"
    ensures GetComplianceLevel(75).Label() == "Aceptable"
    ensures GetComplianceLevel(65).Label() == "Mejorable"
    ensures GetComplianceLevel(10).Label() == "Crítico"
  {
  }
}

=== FILE: issues_list.dfy ===
/** The badge colour of a stored issue row (src/components/IssuesList.tsx). */
module IssuesList {
  import opened Wrappers
  import opened Types
  import Mappers
  import AnalyzeAccessibility

  datatype BadgeClass = ErrorBadge | WarningBadge | SecondaryBadge {
    function ClassName(): string {
      match this
      case ErrorBadge => "bg-error text-error-foreground"
      case WarningBadge => "bg-warning text-warning-foreground"
      case SecondaryBadge => "bg-secondary text-secondary-foreground"
    }
  }

  /** The badge for a stored severity string, compared exactly; "minor" and anything unknown share a badge. */
  function GetSeverityColor(severity: string): (c: BadgeClass)
    ensures c == ErrorBadge <==> ParseImpact(severity) in {Some(Critical), Some(Serious)}
    ensures c == WarningBadge <==> ParseImpact(severity) == Some(Moderate)
    ensures c == SecondaryBadge <==> ParseImpact(severity) in {None, Some(Minor)}
  {
    match severity
    case "critical" => ErrorBadge
    case "serious" => ErrorBadge
    case "moderate" => WarningBadge
    case "minor" => SecondaryBadge
    case _ => SecondaryBadge
  }

  /** The badge of an exact impact label follows the severity the mapper gives it. */
  lemma BadgeFollowsSeverity(i: Impact)
    ensures GetSeverityColor(i.Label()) == ErrorBadge <==> Mappers.MapSeverity(i.Label()) == High
    ensures GetSeverityColor(i.Label()) == WarningBadge <==> Mappers.MapSeverity(i.Label()) == Medium
  {
    Mappers.MapSeverityOfLabels(i);
  }

  /** Unlike the mapper, the badge is case-sensitive: "CRITICAL" gets the default badge. */
  lemma BadgeIsCaseSensitive()
    ensures GetSeverityColor("CRITICAL") == SecondaryBadge
    ensures Mappers.MapSeverity("CRITICAL") == High
  {
    Mappers.PenaltyIsCaseSensitive();
  }

  /** A row stored without an impact carries "error" and gets the default badge. */
  lemma MissingImpactRowBadge(scanId: string, v: AnalyzeAccessibility.AxeViolation)
    requires v.impact.None? || v.impact == Some("")
    ensures GetSeverityColor(AnalyzeAccessibility.ToIssueRow(scanId, v).severity) == SecondaryBadge
  {
  }
}

=== FILE: issues_section.dfy ===
/** The issue list of the accessibility page (src/components/accessibility/IssuesSection.tsx). */
module IssuesSection {
  import opened Types
  import opened SeverityBuckets

  /** The word in a group heading, chosen from the group's key; any key but "high" and "medium" reads "Baja". */
  function HeadingWord(key: string): (w: string)
    ensures key == "high" ==> w == "Alta"
    ensures key != "high" && key == "medium" ==> w == "Media"
    ensures key != "high" && key != "medium" ==> w == "Baja"
  {
    if key == "high" then "Alta" else if key == "medium" then "Media" else "Baja"
  }

  /** Each severity's key yields its own adjective, so the three headings differ. */
  lemma HeadingWordOfSeverity(sev: Severity)
    ensures HeadingWord(sev.Tag()) == sev.Adjective()
  {
    match sev
    case High =>
    case Medium =>
      assert "medium" != "high";
    case Low =>
      assert "low" != "high" && "low" != "medium";
  }

  function Heading(sev: Severity): string {
    "Problemas de " + HeadingWord(sev.Tag()) + " Severidad"
  }

  /** A rendered group: its heading and its issues. */
  datatype Group = Group(heading: string, issues: seq<Issue>)

  /** The groups rendered: one per non-empty bucket, in high, medium, low order. */
  function Groups(issues: seq<Issue>): (r: seq<Group>)
    ensures |r| == |Sections(issues)|
    ensures forall k :: 0 <= k < |r| ==>
              && r[k].heading == "Problemas de " + Sections(issues)[k].severity.Adjective() + " Severidad"
              && r[k].issues == Bucket(issues, Sections(issues)[k].severity)
              && |r[k].issues| > 0
  {
    var s := Sections(issues);
    seq(|s|, k requires 0 <= k < |s| =>
      HeadingWordOfSeverity(s[k].severity);
      Group(Heading(s[k].severity), s[k].issues))
  }
}

=== FILE: mappers.dfy ===
/**
 * The client-side mapper from the analysis API's response to the scan
 * result the dashboard renders (src/lib/utils/mappers.ts).
 */
module Mappers {
  import opened Wrappers
  import opened Text
  import opened Types

  // ---------------------------------------------------------------- severity

  /** How the four impact levels collapse onto three severities. */
  function Collapse(i: Impact): Severity {
    match i
    case Critical => High
    case Serious => High
    case Moderate => Medium
    case Minor => Low
  }

  /**
   * The severity of an impact label, compared after lower-casing; a label
   * that names none of the four impacts is `Low`.
   */
  function MapSeverity(impact: string): (r: Severity)
    ensures r == (match ParseImpact(ToLower(impact))
                  case Some(i) => Collapse(i)
                  case None => Low)
  {
    var l := ToLower(impact);
    if l == "critical" || l == "serious" then High
    else if l == "moderate" then Medium
    else Low
  }

  /** Labels that agree up to ASCII case get the same severity. */
  lemma MapSeverityCaseInsensitive(a: string, b: string)
    requires ToLower(a) == ToLower(b)
    ensures MapSeverity(a) == MapSeverity(b)
  {
  }

  /** The severity of every impact, whether written in lower or upper case. */
  lemma MapSeverityOfLabels(i: Impact)
    ensures MapSeverity(i.Label()) == Collapse(i)
    ensures MapSeverity(ToUpper(i.Label())) == Collapse(i)
    ensures Collapse(i) == High <==> i == Critical || i == Serious
  {
    ToLowerOfToUpper(i.Label());
    assert ToLower(i.Label()) == i.Label();
  }

  // ----------------------------------------------------------------- penalty

  /** Points one violation of a known impact costs. */
  function Weight(i: Impact): nat {
    match i
    case Critical => 15
    case Serious => 10
    case Moderate => 5
    case Minor => 2
  }

  /**
   * Points one violation costs: looked up by the exact label, so any other
   * spelling (including upper case) costs the default 2.
   */
  function Penalty(impact: string): (p: nat)
    ensures 2 <= p <= 15
    ensures ParseImpact(impact).Some? ==> p == Weight(ParseImpact(impact).value)
    ensures ParseImpact(impact).None? ==> p == 2
  {
    match ParseImpact(impact)
    case Some(i) => Weight(i)
    case None => 2
  }

  /**
   * The lookup is case-sensitive while the severity is not: an upper-case
   * "CRITICAL" is a high-severity issue that costs only 2 points.
   */
  lemma PenaltyIsCaseSensitive()
    ensures MapSeverity("CRITICAL") == High
    ensures Penalty("CRITICAL") == 2
    ensures Penalty("critical") == 15
  {
    assert ToLower("CRITICAL") == "critical";
  }

  /** The sum of the penalties, accumulated left to right. */
  function TotalPenalty(vs: seq<ApiViolation>): (t: int)
    ensures 2 * |vs| <= t <= 15 * |vs|
  {
    if |vs| == 0 then 0
    else TotalPenalty(vs[..|vs| - 1]) + Penalty(vs[|vs| - 1].impact)
  }

  lemma {:induction false} TotalPenaltyAppend(a: seq<ApiViolation>, b: seq<ApiViolation>)
    ensures TotalPenalty(a + b) == TotalPenalty(a) + TotalPenalty(b)
    decreases |b|
  {
    if |b| > 0 {
      var b' := b[..|b| - 1];
      assert (a + b)[..|a + b| - 1] == a + b';
      TotalPenaltyAppend(a, b');
    } else {
      assert a + b == a;
    }
  }

  /** The penalty sum does not depend on the order of the violations. */
  lemma {:induction false} TotalPenaltyPermutation(a: seq<ApiViolation>, b: seq<ApiViolation>)
    requires multiset(a) == multiset(b)
    ensures TotalPenalty(a) == TotalPenalty(b)
    decreases |a|
  {
    if |a| > 0 {
      var x := a[|a| - 1];
      var a' := a[..|a| - 1];
      assert x in multiset(b);
      var k :| 0 <= k < |b| && b[k] == x;
      var b' := b[..k] + b[k + 1..];
      RemoveAt(a, |a| - 1);
      RemoveAt(b, k);
      assert a[..|a| - 1] + a[|a|..] == a';
      TotalPenaltyPermutation(a', b');
      TotalPenaltyAppend(b[..k], [x]);
      TotalPenaltyAppend(b[..k] + [x], b[k + 1..]);
      TotalPenaltyAppend(b[..k], b[k + 1..]);
      SplitAt(b, k);
      assert [x][..0] == [];
    } else {
      assert |b| == |multiset(b)| == 0;
    }
  }

  /** A sequence is what precedes a position, the element there, and what follows. */
  lemma SplitAt(s: seq<ApiViolation>, k: int)
    requires 0 <= k < |s|
    ensures s == s[..k] + [s[k]] + s[k + 1..]
  {
  }

  /** Taking out the element at one position takes one occurrence of it out of the contents. */
  lemma RemoveAt(s: seq<ApiViolation>, k: int)
    requires 0 <= k < |s|
    ensures multiset(s[..k] + s[k + 1..]) == multiset(s) - multiset{s[k]}
  {
    SplitAt(s, k);
  }

  /** Every violation of a list that carries one label costs the same. */
  lemma {:induction false} TotalPenaltyUniform(vs: seq<ApiViolation>, impact: string)
    requires forall k :: 0 <= k < |vs| ==> vs[k].impact == impact
    ensures TotalPenalty(vs) == Penalty(impact) * |vs|
  {
    if |vs| > 0 {
      TotalPenaltyUniform(vs[..|vs| - 1], impact);
    }
  }

  /** The score: 100 less the penalties, clamped to [0, 100]. */
  function CalculateScore(vs: seq<ApiViolation>): (score: int)
    ensures 0 <= score <= 100
    ensures score == 100 <==> |vs| == 0
    ensures score > 0 ==> score == 100 - TotalPenalty(vs)
    ensures TotalPenalty(vs) < 100 ==> score == 100 - TotalPenalty(vs)
    ensures TotalPenalty(vs) >= 100 ==> score == 0
  {
    var s := 100 - TotalPenalty(vs);
    if s < 0 then 0 else if s > 100 then 100 else s
  }

  /** Reordering the violations leaves the score unchanged. */
  lemma ScorePermutationInvariant(a: seq<ApiViolation>, b: seq<ApiViolation>)
    requires multiset(a) == multiset(b)
    ensures CalculateScore(a) == CalculateScore(b)
  {
    TotalPenaltyPermutation(a, b);
  }

  /** Adding violations never raises the score. */
  lemma ScoreNeverRises(a: seq<ApiViolation>, b: seq<ApiViolation>)
    ensures CalculateScore(a + b) <= CalculateScore(a)
    ensures CalculateScore(b + a) <= CalculateScore(a)
  {
    TotalPenaltyAppend(a, b);
    TotalPenaltyAppend(b, a);
  }

  /** The worked examples: one critical violation scores 85, ten minor ones 80. */
  lemma ScoreExamples(v: ApiViolation, tenMinor: seq<ApiViolation>)
    requires v.impact == "critical"
    requires |tenMinor| == 10 && forall k :: 0 <= k < 10 ==> tenMinor[k].impact == "minor"
    ensures CalculateScore([v]) == 85
    ensures CalculateScore(tenMinor) == 80
  {
    TotalPenaltyUniform([v], "critical");
    TotalPenaltyUniform(tenMinor, "minor");
  }

  /** Seven critical violations already use up the whole score. */
  lemma ScoreSaturatesAtSevenCritical(vs: seq<ApiViolation>)
    requires |vs| >= 7
    requires forall k :: 0 <= k < |vs| ==> vs[k].impact == "critical"
    ensures CalculateScore(vs) == 0
  {
    TotalPenaltyUniform(vs, "critical");
  }

  /** Fifty violations of any impact give 0; six or fewer always leave some score. */
  lemma ScoreCountBounds(vs: seq<ApiViolation>)
    ensures |vs| >= 50 ==> CalculateScore(vs) == 0
    ensures |vs| <= 6 ==> CalculateScore(vs) >= 10
  {
  }

  // ------------------------------------------------------------------ issues

  /** The identifier of the issue at position `i`. */
  function IssueId(i: nat): (id: string)
    ensures StartsWith(id, "issue-") && |id| > 6
    ensures forall k :: 6 <= k < |id| ==> '0' <= id[k] <= '9'
    ensures |id| > 7 ==> id[6] != '0'
    ensures ParseDecimal(id[6..]) == i
  {
    ParseNatToString(i);
    "issue-" + NatToString(i)
  }

  /** Distinct positions get distinct identifiers. */
  lemma IssueIdInjective(i: nat, j: nat)
    requires i != j
    ensures IssueId(i) != IssueId(j)
  {
  }

  const NoDetails: string := "No hay detalles disponibles"

  /** What follows the line break: the first affected node's markup, or a fixed placeholder when there is no node or its markup is empty. */
  function SampleMarkup(v: ApiViolation): (s: string)
    ensures s != ""
    ensures |v.affectedNodes| > 0 && v.affectedNodes[0].html != "" ==> s == v.affectedNodes[0].html
    ensures (|v.affectedNodes| == 0 || v.affectedNodes[0].html == "") ==> s == NoDetails
  {
    if |v.affectedNodes| > 0 && v.affectedNodes[0].html != "" then v.affectedNodes[0].html else NoDetails
  }

  /** The head of the description, up to and including "elemento". */
  function CountHead(nodes: int): string {
    "Encontrado en " + IntToString(nodes) + " elemento"
  }

  /** The template literal's line break and the 17 spaces that indent its second line. */
  const Indent: string := "\n                 "

  function IssueDescription(v: ApiViolation): (d: string)
    ensures StartsWith(d, CountHead(v.nodes))
    ensures |CountHead(v.nodes)| < |d|
    ensures d[|CountHead(v.nodes)|] == 's' <==> v.nodes > 1
    ensures |SampleMarkup(v)| < |d|
    ensures d[|d| - |SampleMarkup(v)|..] == SampleMarkup(v)
  {
    var head := CountHead(v.nodes) + (if v.nodes > 1 then "s" else "") + ".";
    var d := head + Indent + SampleMarkup(v);
    assert d[..|CountHead(v.nodes)|] == CountHead(v.nodes);
    assert d[|d| - |SampleMarkup(v)|..] == SampleMarkup(v);
    d
  }

  /** The description names the affected-node count, readable back from its digits. */
  lemma DescriptionEmbedsCount(v: ApiViolation)
    requires v.nodes >= 0
    ensures var digits := IntToString(v.nodes);
            var d := IssueDescription(v);
            |"Encontrado en "| + |digits| <= |d| &&
            ParseDecimal(d[|"Encontrado en "|..|"Encontrado en "| + |digits|]) == v.nodes
  {
    var d := IssueDescription(v);
    var n := |"Encontrado en "| + |IntToString(v.nodes)|;
    assert d[..|CountHead(v.nodes)|] == CountHead(v.nodes);
    assert d[|"Encontrado en "|..n] == CountHead(v.nodes)[|"Encontrado en "|..n];
    assert CountHead(v.nodes)[|"Encontrado en "|..n] == NatToString(v.nodes);
    ParseNatToString(v.nodes);
  }

  /** The issue built from the violation at position `i`. */
  function FormatIssue(v: ApiViolation, i: nat): Issue {
    Issue(
      id := IssueId(i),
      title := v.description,
      description := IssueDescription(v),
      severity := MapSeverity(v.impact),
      wcagReference := v.wcagReference,
      solution := v.suggestedFix)
  }

  lemma IssueIdsDistinct(n: nat)
    ensures forall i, j :: 0 <= i < j < n ==> IssueId(i) != IssueId(j)
  {
    forall i, j | 0 <= i < j < n
      ensures IssueId(i) != IssueId(j)
    {
      IssueIdInjective(i, j);
    }
  }

  /** One issue per violation, in order, with pairwise distinct identifiers. */
  function FormatViolations(vs: seq<ApiViolation>): (issues: seq<Issue>)
    ensures |issues| == |vs|
    ensures forall i :: 0 <= i < |vs| ==>
              && issues[i].id == IssueId(i)
              && issues[i].title == vs[i].description
              && issues[i].description == IssueDescription(vs[i])
              && issues[i].severity == MapSeverity(vs[i].impact)
              && issues[i].wcagReference == vs[i].wcagReference
              && issues[i].solution == vs[i].suggestedFix
    ensures forall i, j :: 0 <= i < j < |issues| ==> issues[i].id != issues[j].id
  {
    IssueIdsDistinct(|vs|);
    seq(|vs|, i requires 0 <= i < |vs| => FormatIssue(vs[i], i))
  }

  // --------------------------------------------------------- recommendations

  /**
   * The recommendations keyed by their `issue`; on a repeated key the later
   * entry overwrites the earlier one.
   */
  function FormatRecommendations(recs: seq<ApiRecommendation>): (m: map<string, string>)
    ensures m.Keys == set k | 0 <= k < |recs| :: recs[k].issue
  {
    if |recs| == 0 then map[]
    else
      var last := recs[|recs| - 1];
      FormatRecommendations(recs[..|recs| - 1])[last.issue := last.recommendation]
  }

  /** A key's value comes from the last entry that carries the key. */
  ghost predicate LastEntryFor(recs: seq<ApiRecommendation>, key: string, k: int) {
    && 0 <= k < |recs|
    && recs[k].issue == key
    && forall j :: k < j < |recs| ==> recs[j].issue != key
  }

  /** A key of the folded map holds the recommendation of the last entry with that key. */
  lemma {:induction false} FormatRecommendationsLastWins(recs: seq<ApiRecommendation>, key: string)
    requires key in FormatRecommendations(recs)
    ensures exists k :: LastEntryFor(recs, key, k) && FormatRecommendations(recs)[key] == recs[k].recommendation
  {
    var pre := recs[..|recs| - 1];
    var last := recs[|recs| - 1];
    if key == last.issue {
      assert LastEntryFor(recs, key, |recs| - 1);
    } else {
      FormatRecommendationsLastWins(pre, key);
      var k :| LastEntryFor(pre, key, k) && FormatRecommendations(pre)[key] == pre[k].recommendation;
      assert LastEntryFor(recs, key, k);
    }
  }

  /** Each key maps to the recommendation of the last entry that carries it. */
  lemma {:induction false} RecommendationLastWriteWins(recs: seq<ApiRecommendation>, k: int)
    requires 0 <= k < |recs|
    requires forall j :: k < j < |recs| ==> recs[j].issue != recs[k].issue
    ensures recs[k].issue in FormatRecommendations(recs)
    ensures FormatRecommendations(recs)[recs[k].issue] == recs[k].recommendation
  {
    var m := FormatRecommendations(recs);
    var key := recs[k].issue;
    FormatRecommendationsLastWins(recs, key);
    var k' :| LastEntryFor(recs, key, k') && m[key] == recs[k'].recommendation;
    assert k' == k;
  }

  // ---------------------------------------------------------------- assembly

  /**
   * The scan result of one API response: the score and the issues both come
   * from the same violations, the summary is copied from the response's
   * counts, and each recommendation key holds its last entry's text.
   */
  function MapScanResultFromApi(resp: ApiResponse): (r: ScanResult)
    ensures r.score == CalculateScore(resp.data.analysis.violations)
    ensures 0 <= r.score <= 100
    ensures r.score == 100 <==> |resp.data.analysis.violations| == 0
    ensures |r.issues| == |resp.data.analysis.violations|
    ensures forall i :: 0 <= i < |r.issues| ==>
              var v := resp.data.analysis.violations[i];
              && r.issues[i].id == IssueId(i)
              && r.issues[i].title == v.description
              && r.issues[i].description == IssueDescription(v)
              && r.issues[i].severity == MapSeverity(v.impact)
              && r.issues[i].wcagReference == v.wcagReference
              && r.issues[i].solution == v.suggestedFix
    ensures var counts := resp.data.summary.violationsByImpact;
            r.summary == Summary(counts.serious.GetOr(0), counts.moderate.GetOr(0), counts.minor.GetOr(0))
    ensures r.recommendations.Keys == set k | 0 <= k < |resp.data.analysis.recommendations| ::
                                        resp.data.analysis.recommendations[k].issue
    ensures var recs := resp.data.analysis.recommendations;
            forall k | 0 <= k < |recs| && LastEntryFor(recs, recs[k].issue, k) ::
              r.recommendations[recs[k].issue] == recs[k].recommendation
  {
    var violations := resp.data.analysis.violations;
    var recs := resp.data.analysis.recommendations;
    var counts := resp.data.summary.violationsByImpact;
    assert forall k | 0 <= k < |recs| && LastEntryFor(recs, recs[k].issue, k) ::
             FormatRecommendations(recs)[recs[k].issue] == recs[k].recommendation by {
      forall k | 0 <= k < |recs| && LastEntryFor(recs, recs[k].issue, k)
        ensures FormatRecommendations(recs)[recs[k].issue] == recs[k].recommendation
      {
        RecommendationLastWriteWins(recs, k);
      }
    }
    ScanResult(
      score := CalculateScore(violations),
      issues := FormatViolations(violations),
      summary := Summary(
        high := counts.serious.GetOr(0),
        medium := counts.moderate.GetOr(0),
        low := counts.minor.GetOr(0)),
      recommendations := FormatRecommendations(recs))
  }

  /**
   * The summary is copied from the response and critical violations are
   * never counted: a response with one critical violation and no counts
   * yields one high-severity issue and a summary of zeros.
   */
  lemma SummaryIsNotRecounted(resp: ApiResponse)
    requires |resp.data.analysis.violations| == 1
    requires resp.data.analysis.violations[0].impact == "critical"
    requires resp.data.summary.violationsByImpact == ViolationsByImpact(None, None, None)
    ensures var r := MapScanResultFromApi(resp);
            && |r.issues| == 1
            && r.issues[0].severity == High
            && r.summary.high + r.summary.medium + r.summary.low == 0
  {
    assert ToLower("critical") == "critical";
  }

  /** The description of a violation found on a single `<img>` node. */
  lemma SingleImageDescription(v: ApiViolation)
    requires v.nodes == 1
    requires |v.affectedNodes| > 0 && v.affectedNodes[0].html == "<img>"
    ensures IssueDescription(v) == "Encontrado en 1 elemento.\n                 <img>"
  {
    assert IntToString(1) == "1";
    assert CountHead(1) == "Encontrado en 1 elemento";
    assert SampleMarkup(v) == "<img>";
  }

  /** A response holding one critical violation, found on one `<img>` node. */
  predicate SingleCriticalImage(resp: ApiResponse) {
    && |resp.data.analysis.violations| == 1
    && var v := resp.data.analysis.violations[0];
       && v.impact == "critical" && v.nodes == 1 && v.wcagReference == "wcag111"
       && |v.affectedNodes| == 1 && v.affectedNodes[0].html == "<img>"
  }

  /** One critical violation on one `<img>` node, end to end: the score. */
  lemma EndToEndScore(resp: ApiResponse)
    requires SingleCriticalImage(resp)
    ensures var r := MapScanResultFromApi(resp);
            r.score == 85 && |r.issues| == 1
  {
    var v := resp.data.analysis.violations[0];
    assert MapScanResultFromApi(resp).score == CalculateScore([v]);
    ScoreExamples(v, seq(10, _ => v.(impact := "minor")));
  }

  /** One critical violation on one `<img>` node, end to end: the issue. */
  lemma EndToEndIssue(resp: ApiResponse)
    requires SingleCriticalImage(resp)
    ensures var r := MapScanResultFromApi(resp);
            && |r.issues| == 1
            && r.issues[0].id == "issue-0"
            && r.issues[0].severity == High
            && r.issues[0].wcagReference == "wcag111"
            && r.issues[0].description == "Encontrado en 1 elemento.\n                 <img>"
  {
    var v := resp.data.analysis.violations[0];
    assert MapScanResultFromApi(resp).issues == FormatViolations([v]);
    MapSeverityOfLabels(Critical);
    assert IssueId(0) == "issue-0";
    SingleImageDescription(v);
  }
}

=== FILE: report_download.dfy ===
/**
 * The text content of the PDF report (src/components/ReportDownload.tsx):
 * which paragraphs are written and in what order. Fonts, positions, page
 * breaks and the page footer belong to the PDF library and are not
 * modelled; the date is the caller's, already formatted.
 */
module ReportDownload {
  import opened Text
  import opened Types
  import opened SeverityBuckets
  import Compliance

  /** One `addText`/`addParagraph` call, or the four paragraphs of one issue. */
  datatype Entry =
    | Title
    | Date(text: string)
    | Subtitle(text: string)
    | ScoreLine(score: int)
    | LevelLine(level: Compliance.Level)
    | CountLine(severity: Severity, count: int)
    | SectionTitle(severity: Severity)
    | Item(number: int, issue: Issue)
    | PlanIntro
    | PlanStep(severity: Severity, count: int)

  /** The one paragraph an entry other than an issue item writes. */
  function Line(e: Entry): string
    requires !e.Item?
  {
    match e
    case Title => "Informe de Accesibilidad Web"
    case Date(text) => text
    case Subtitle(text) => text
    case ScoreLine(score) => "Puntuación de Accesibilidad: " + IntToString(score) + "/100"
    case LevelLine(level) => "Nivel de Cumplimiento: " + level.Label()
    case CountLine(sev, count) => "• " + sev.Adjective() + " Severidad: " + IntToString(count) + " problemas"
    case SectionTitle(sev) => "Problemas de " + sev.Adjective() + " Severidad"
    case PlanIntro => "Se recomienda abordar los problemas en el siguiente orden:"
    case PlanStep(sev, count) =>
      match sev
      case High =>
        "1. Resolver los " + IntToString(count)
        + " problemas de alta severidad que afectan críticamante la accesibilidad."
      case Medium =>
        "2. Abordar los " + IntToString(count)
        + " problemas de severidad media para mejorar la experiencia de usuario."
      case Low =>
        "3. Finalmente, corregir los " + IntToString(count)
        + " problemas de baja severidad para optimizar la accesibilidad."
  }

  /** `p` is the fixed label `prefix` followed by exactly `field`. */
  predicate Labelled(p: string, prefix: string, field: string) {
    StartsWith(p, prefix) && p[|prefix|..] == field
  }

  /** The text an entry writes, one string per paragraph: four for an issue, one otherwise. */
  function Paragraphs(e: Entry): (ps: seq<string>)
    ensures |ps| == (if e.Item? then 4 else 1)
    ensures e.Item? ==>
              Labelled(ps[0], IntToString(e.number) + ". ", e.issue.title)
              && Labelled(ps[1], "Descripción: ", e.issue.description)
              && Labelled(ps[2], "Solución: ", e.issue.solution)
              && Labelled(ps[3], "Referencia WCAG: ", e.issue.wcagReference)
    ensures !e.Item? ==> ps == [Line(e)]
  {
    if e.Item? then
      [ IntToString(e.number) + ". " + e.issue.title,
        "Descripción: " + e.issue.description,
        "Solución: " + e.issue.solution,
        "Referencia WCAG: " + e.issue.wcagReference ]
    else [Line(e)]
  }

  /** The issue counts of the summary block: one line per positive count, high first. */
  function CountLines(summary: Summary): (r: seq<Entry>)
    ensures forall sev :: CountLine(sev, summary.Count(sev)) in r <==> summary.Count(sev) > 0
    ensures forall k :: 0 <= k < |r| ==>
              r[k].CountLine? && r[k].count == summary.Count(r[k].severity) && r[k].count > 0
    ensures forall k, l :: 0 <= k < l < |r| ==> r[k].severity.DisplayRank() < r[l].severity.DisplayRank()
  {
    var shown := InDisplayOrder(sev => summary.Count(sev) > 0);
    var r := seq(|shown|, k requires 0 <= k < |shown| => CountLine(shown[k], summary.Count(shown[k])));
    assert forall sev :: CountLine(sev, summary.Count(sev)) in r ==> sev in shown by {
      forall sev | CountLine(sev, summary.Count(sev)) in r
        ensures sev in shown
      {
        var k :| 0 <= k < |r| && r[k] == CountLine(sev, summary.Count(sev));
        assert shown[k] == sev;
      }
    }
    assert forall sev :: sev in shown ==> CountLine(sev, summary.Count(sev)) in r by {
      forall sev | sev in shown
        ensures CountLine(sev, summary.Count(sev)) in r
      {
        var k :| 0 <= k < |shown| && shown[k] == sev;
        assert r[k] == CountLine(sev, summary.Count(sev));
      }
    }
    r
  }

  /** The action plan's steps: one per positive count, each keeping its fixed number. */
  function PlanSteps(summary: Summary): (r: seq<Entry>)
    ensures |r| == |CountLines(summary)|
    ensures forall k :: 0 <= k < |r| ==>
              r[k] == PlanStep(CountLines(summary)[k].severity, CountLines(summary)[k].count)
  {
    var lines := CountLines(summary);
    seq(|lines|, k requires 0 <= k < |lines| => PlanStep(lines[k].severity, lines[k].count))
  }

  /**
   * `addIssuesBySeverity`: nothing for an empty bucket, else its title and
   * the bucket's issues numbered 1, 2, 3, ... in their original order.
   */
  function SeveritySection(issues: seq<Issue>, sev: Severity): (r: seq<Entry>)
    ensures |Bucket(issues, sev)| == 0 <==> r == []
    ensures |r| > 0 ==> |r| == |Bucket(issues, sev)| + 1 && r[0] == SectionTitle(sev)
    ensures |r| > 0 ==> forall k :: 0 <= k < |Bucket(issues, sev)| ==> r[k + 1] == Item(k + 1, Bucket(issues, sev)[k])
  {
    var b := Bucket(issues, sev);
    if |b| == 0 then []
    else [SectionTitle(sev)] + seq(|b|, k requires 0 <= k < |b| => Item(k + 1, b[k]))
  }

  /** The detailed analysis: the high, medium and low sections, in that order. */
  function DetailedAnalysis(issues: seq<Issue>): seq<Entry> {
    SeveritySection(issues, High) + SeveritySection(issues, Medium) + SeveritySection(issues, Low)
  }

  /** The severity a section title or an issue item is listed under. */
  function ListedSeverity(e: Entry): Severity
    requires e.SectionTitle? || e.Item?
  {
    if e.SectionTitle? then e.severity else e.issue.severity
  }

  /** Every entry of a section is its title or one of its items, all of the section's severity. */
  lemma SectionEntrySeverity(issues: seq<Issue>, sev: Severity, k: int)
    requires 0 <= k < |SeveritySection(issues, sev)|
    ensures SeveritySection(issues, sev)[k].SectionTitle? || SeveritySection(issues, sev)[k].Item?
    ensures ListedSeverity(SeveritySection(issues, sev)[k]) == sev
  {
    if k > 0 {
      var b := Bucket(issues, sev);
      assert b[k - 1] in b;
    }
  }

  /** Indexing into three joined sequences. */
  lemma ThreePartIndex(a: seq<Entry>, b: seq<Entry>, c: seq<Entry>, k: int)
    requires 0 <= k < |a| + |b| + |c|
    ensures (a + b + c)[k] == if k < |a| then a[k] else if k < |a| + |b| then b[k - |a|] else c[k - |a| - |b|]
  {
  }

  /**
   * Where entry `k` of the detailed analysis falls: in the high section,
   * then the medium one, then the low one, each entry carrying its section's severity.
   */
  lemma DetailedAnalysisRank(issues: seq<Issue>, k: int)
    requires 0 <= k < |DetailedAnalysis(issues)|
    ensures DetailedAnalysis(issues)[k].SectionTitle? || DetailedAnalysis(issues)[k].Item?
    ensures var h := |SeveritySection(issues, High)|;
            var m := |SeveritySection(issues, Medium)|;
            ListedSeverity(DetailedAnalysis(issues)[k])
              == if k < h then High else if k < h + m then Medium else Low
  {
    var sh, sm, sl := SeveritySection(issues, High), SeveritySection(issues, Medium), SeveritySection(issues, Low);
    ThreePartIndex(sh, sm, sl, k);
    if k < |sh| {
      SectionEntrySeverity(issues, High, k);
    } else if k < |sh| + |sm| {
      SectionEntrySeverity(issues, Medium, k - |sh|);
    } else {
      SectionEntrySeverity(issues, Low, k - |sh| - |sm|);
    }
  }

  /**
   * The detailed analysis lists only section titles and issue items, and
   * their severities never rise again once they have fallen: high, then medium, then low.
   */
  lemma DetailedAnalysisOrdered(issues: seq<Issue>)
    ensures forall k :: 0 <= k < |DetailedAnalysis(issues)| ==>
              DetailedAnalysis(issues)[k].SectionTitle? || DetailedAnalysis(issues)[k].Item?
    ensures forall k, l :: 0 <= k < l < |DetailedAnalysis(issues)| ==>
              (DetailedAnalysis(issues)[k].SectionTitle? || DetailedAnalysis(issues)[k].Item?)
              && (DetailedAnalysis(issues)[l].SectionTitle? || DetailedAnalysis(issues)[l].Item?)
              && ListedSeverity(DetailedAnalysis(issues)[k]).DisplayRank()
                 <= ListedSeverity(DetailedAnalysis(issues)[l]).DisplayRank()
  {
    var d := DetailedAnalysis(issues);
    forall k | 0 <= k < |d|
      ensures d[k].SectionTitle? || d[k].Item?
    {
      DetailedAnalysisRank(issues, k);
    }
    forall k, l | 0 <= k < l < |d|
      ensures (d[k].SectionTitle? || d[k].Item?) && (d[l].SectionTitle? || d[l].Item?)
      ensures ListedSeverity(d[k]).DisplayRank() <= ListedSeverity(d[l]).DisplayRank()
    {
      DetailedAnalysisRank(issues, k);
      DetailedAnalysisRank(issues, l);
    }
  }

  /** Every issue is listed once: one entry per issue plus one title per non-empty section. */
  lemma DetailedAnalysisSize(issues: seq<Issue>)
    ensures |DetailedAnalysis(issues)| == |issues| + |NonEmptySections(issues)|
  {
    BucketsPartition(issues);
  }

  /** Title, date, general summary and issue counts, up to the detailed analysis's heading. */
  function ReportHead(data: ScanResult, date: string): (h: seq<Entry>)
    ensures |h| == 7 + |CountLines(data.summary)|
    ensures h[0] == Title && h[1] == Date(date) && h[3] == ScoreLine(data.score)
    ensures h[4] == LevelLine(Compliance.GetComplianceLevel(data.score))
    ensures h[|h| - 1] == Subtitle("Análisis Detallado")
  {
    [ Title, Date(date),
      Subtitle("Resumen General"),
      ScoreLine(data.score),
      LevelLine(Compliance.GetComplianceLevel(data.score)),
      Subtitle("Resumen de Problemas") ]
    + CountLines(data.summary)
    + [Subtitle("Análisis Detallado")]
  }

  /** The action plan that closes the report. */
  function ActionPlan(summary: Summary): (p: seq<Entry>)
    ensures |p| == 2 + |CountLines(summary)|
    ensures p[0] == Subtitle("Plan de Acción Recomendado") && p[1] == PlanIntro
    ensures p[2..] == PlanSteps(summary)
  {
    [Subtitle("Plan de Acción Recomendado"), PlanIntro] + PlanSteps(summary)
  }

  /** Three joined blocks can be cut apart again at their boundaries. */
  lemma JoinParts(a: seq<Entry>, b: seq<Entry>, c: seq<Entry>)
    ensures |a + b + c| == |a| + |b| + |c|
    ensures (a + b + c)[..|a|] == a
    ensures (a + b + c)[|a|..|a| + |b|] == b
    ensures (a + b + c)[|a| + |b|..] == c
  {
  }

  /**
   * The whole report, as the sequence of entries written: it opens with the
   * title, the date, the score and the compliance level; after the count
   * lines comes the "Análisis Detallado" heading, then the high, medium and
   * low sections, then the action plan with its steps last. It holds nine
   * fixed entries, a count line and a plan step per positive count, one
   * item per issue and one title per non-empty section.
   */
  function Report(data: ScanResult, date: string): (r: seq<Entry>)
    ensures |r| == 9 + 2 * |CountLines(data.summary)| + |DetailedAnalysis(data.issues)|
    ensures |r| == 9 + 2 * |CountLines(data.summary)| + |data.issues| + |NonEmptySections(data.issues)|
    ensures r[0] == Title && r[1] == Date(date) && r[3] == ScoreLine(data.score)
    ensures r[4] == LevelLine(Compliance.GetComplianceLevel(data.score))
    ensures var h := 7 + |CountLines(data.summary)|;
            var d := DetailedAnalysis(data.issues);
            r[h - 1] == Subtitle("Análisis Detallado")
            && r[h..h + |d|] == d
            && r[h + |d|] == Subtitle("Plan de Acción Recomendado")
            && r[h + |d| + 1] == PlanIntro
            && r[h + |d| + 2..] == PlanSteps(data.summary)
  {
    DetailedAnalysisSize(data.issues);
    var hd, d, p := ReportHead(data, date), DetailedAnalysis(data.issues), ActionPlan(data.summary);
    JoinParts(hd, d, p);
    hd + d + p
  }

  /** The detailed analysis holds section titles and issue items only. */
  lemma DetailedAnalysisKinds(issues: seq<Issue>)
    ensures forall e :: e in DetailedAnalysis(issues) ==> e.SectionTitle? || e.Item?
  {
    var sh, sm, sl := SeveritySection(issues, High), SeveritySection(issues, Medium),
                      SeveritySection(issues, Low);
    assert forall k :: 0 <= k < |sh| ==> sh[k].SectionTitle? || sh[k].Item?;
    assert forall k :: 0 <= k < |sm| ==> sm[k].SectionTitle? || sm[k].Item?;
    assert forall k :: 0 <= k < |sl| ==> sl[k].SectionTitle? || sl[k].Item?;
  }

  /** The head holds no plan step and no section title; its count lines are the summary's. */
  lemma ReportHeadParts(data: ScanResult, date: string, e: Entry)
    requires e in ReportHead(data, date)
    ensures !e.PlanStep? && !e.SectionTitle?
    ensures e.CountLine? ==> e in CountLines(data.summary)
  {
    var lines := CountLines(data.summary);
    assert forall k :: 0 <= k < |lines| ==> lines[k].CountLine?;
  }

  /** The action plan holds no count line and no section title; its steps are the summary's. */
  lemma ActionPlanParts(summary: Summary, e: Entry)
    requires e in ActionPlan(summary)
    ensures !e.CountLine? && !e.SectionTitle?
    ensures e.PlanStep? ==> e in PlanSteps(summary)
  {
    var steps := PlanSteps(summary);
    assert forall k :: 0 <= k < |steps| ==> steps[k].PlanStep?;
  }

  /** Where each kind of entry can come from. */
  lemma ReportParts(data: ScanResult, date: string, e: Entry)
    ensures e in Report(data, date) && e.CountLine? ==> e in CountLines(data.summary)
    ensures e in Report(data, date) && e.PlanStep? ==> e in PlanSteps(data.summary)
    ensures e in Report(data, date) && e.SectionTitle? ==> e in DetailedAnalysis(data.issues)
  {
    if e !in Report(data, date) {
    } else if e in ReportHead(data, date) {
      ReportHeadParts(data, date, e);
    } else if e in DetailedAnalysis(data.issues) {
      DetailedAnalysisKinds(data.issues);
    } else {
      ActionPlanParts(data.summary, e);
    }
  }

  /** A severity's summary line and plan step are written exactly when its count is positive. */
  lemma CountGatedLines(data: ScanResult, date: string, sev: Severity)
    ensures CountLine(sev, data.summary.Count(sev)) in Report(data, date) <==> data.summary.Count(sev) > 0
    ensures PlanStep(sev, data.summary.Count(sev)) in Report(data, date) <==> data.summary.Count(sev) > 0
  {
    var c := data.summary.Count(sev);
    var lines := CountLines(data.summary);
    var steps := PlanSteps(data.summary);
    if c > 0 {
      var k :| 0 <= k < |lines| && lines[k] == CountLine(sev, c);
      assert steps[k] == PlanStep(sev, c);
      assert steps[k] in steps;
    } else {
      if CountLine(sev, c) in Report(data, date) {
        ReportParts(data, date, CountLine(sev, c));
      }
      if PlanStep(sev, c) in Report(data, date) {
        ReportParts(data, date, PlanStep(sev, c));
      }
    }
  }

  /** A section's title names its own severity and appears only when its bucket is non-empty. */
  lemma SectionTitleInSection(issues: seq<Issue>, s: Severity, sev: Severity)
    ensures SectionTitle(sev) in SeveritySection(issues, s) <==> s == sev && |Bucket(issues, s)| > 0
  {
    var r := SeveritySection(issues, s);
    if SectionTitle(sev) in r {
      var k :| 0 <= k < |r| && r[k] == SectionTitle(sev);
      assert k == 0;
    }
    if s == sev && |Bucket(issues, s)| > 0 {
      assert r[0] == SectionTitle(sev);
    }
  }

  /** A severity's section title is written exactly when some issue has that severity. */
  lemma SectionTitleGated(data: ScanResult, date: string, sev: Severity)
    ensures SectionTitle(sev) in Report(data, date) <==> |Bucket(data.issues, sev)| > 0
  {
    var d := DetailedAnalysis(data.issues);
    SectionTitleInSection(data.issues, High, sev);
    SectionTitleInSection(data.issues, Medium, sev);
    SectionTitleInSection(data.issues, Low, sev);
    assert SectionTitle(sev) in d <==> |Bucket(data.issues, sev)| > 0;
    if SectionTitle(sev) in Report(data, date) {
      ReportParts(data, date, SectionTitle(sev));
    }
    if SectionTitle(sev) in d {
      assert SectionTitle(sev) in ReportHead(data, date) + d;
    }
  }

  /**
   * The plan keeps its fixed step numbers: with no high-severity count and
   * some medium ones, the plan's first line begins "2.".
   */
  lemma PlanStartsAtTwoWithoutHigh(summary: Summary)
    requires summary.high <= 0 && summary.medium > 0
    ensures |PlanSteps(summary)| > 0
    ensures Paragraphs(PlanSteps(summary)[0]) == [Line(PlanSteps(summary)[0])]
    ensures StartsWith(Line(PlanSteps(summary)[0]), "2.")
  {
    var lines := CountLines(summary);
    assert CountLine(Medium, summary.medium) in lines;
    assert lines[0].severity != High;
    assert lines[0].severity == Medium;
    var step := PlanSteps(summary)[0];
    assert step == PlanStep(Medium, summary.medium);
    var rest := IntToString(summary.medium)
                + " problemas de severidad media para mejorar la experiencia de usuario.";
    assert Line(step) == "2. Abordar los " + rest;
  }
}

=== FILE: results_dashboard.dfy ===
/**
 * The derived data of the results dashboard
 * (src/components/ResultsDashboard.tsx): the issue total, the per-severity
 * buckets and the join of the per-issue AI texts by issue id. The AI
 * service itself is not modelled; its answers arrive as `results`, one per
 * issue, `None` where the service returned null.
 */
module ResultsDashboard {
  import opened Wrappers
  import opened Types
  import opened SeverityBuckets
  import Mappers

  /** `totalIssues`: the sum of the summary's three counts, critical violations not among them. */
  lemma TotalIssuesFromResponse(resp: ApiResponse)
    ensures var counts := resp.data.summary.violationsByImpact;
            Mappers.MapScanResultFromApi(resp).summary.Total()
            == counts.serious.GetOr(0) + counts.moderate.GetOr(0) + counts.minor.GetOr(0)
  {
  }

  /** The badges of the summary card: the size of each bucket, all three always shown. */
  function PriorityCounts(issues: seq<Issue>): (counts: Summary)
    ensures counts.Total() == |issues|
    ensures forall sev :: counts.Count(sev) == |Bucket(issues, sev)|
  {
    BucketsPartition(issues);
    Summary(|Bucket(issues, High)|, |Bucket(issues, Medium)|, |Bucket(issues, Low)|)
  }

  /** The AI text of one issue, or the empty string when the index is out of range or there is no text. */
  function ResultText(results: seq<Option<string>>, index: int): (t: string)
    ensures 0 <= index < |results| && results[index].Some? ==> t == results[index].value
    ensures !(0 <= index < |results|) || results[index].None? ==> t == ""
  {
    if 0 <= index < |results| && results[index].Some? then results[index].value else ""
  }

  /** `analysisMap`, written issue by issue in order. */
  function AnalysisMap(issues: seq<Issue>, results: seq<Option<string>>): (m: map<string, string>)
    ensures m.Keys == set k | 0 <= k < |issues| :: issues[k].id
  {
    if |issues| == 0 then map[]
    else
      var n := |issues| - 1;
      AnalysisMap(issues[..n], results)[issues[n].id := ResultText(results, n)]
  }

  /** With distinct ids, each issue's entry is the answer given for its position. */
  lemma {:induction false} AnalysisJoin(issues: seq<Issue>, results: seq<Option<string>>, i: int)
    requires forall a, b :: 0 <= a < b < |issues| ==> issues[a].id != issues[b].id
    requires 0 <= i < |issues|
    ensures issues[i].id in AnalysisMap(issues, results)
    ensures AnalysisMap(issues, results)[issues[i].id] == ResultText(results, i)
  {
    var n := |issues| - 1;
    if i < n {
      AnalysisJoin(issues[..n], results, i);
      assert issues[n].id != issues[i].id;
    }
  }

  /** For the issues the mapper builds, entry `issue-i` holds the i-th answer. */
  lemma JoinAfterFormat(vs: seq<ApiViolation>, results: seq<Option<string>>, i: int)
    requires 0 <= i < |vs|
    ensures Mappers.IssueId(i) in AnalysisMap(Mappers.FormatViolations(vs), results)
    ensures AnalysisMap(Mappers.FormatViolations(vs), results)[Mappers.IssueId(i)] == ResultText(results, i)
  {
    AnalysisJoin(Mappers.FormatViolations(vs), results, i);
  }
}

=== FILE: severity_buckets.dfy ===
/**
 * Grouping issues by severity, as every view does: for each of high,
 * medium and low, the issues whose severity equals it, in their original
 * order, always listed high first.
 */
module SeverityBuckets {
  import opened Types

  /** The issues of one severity, in their original order. */
  function Bucket(issues: seq<Issue>, sev: Severity): (b: seq<Issue>)
    ensures |b| <= |issues|
    ensures forall x :: x in b <==> x in issues && x.severity == sev
  {
    if |issues| == 0 then []
    else
      var last := issues[|issues| - 1];
      assert issues == issues[..|issues| - 1] + [last];
      if last.severity == sev then Bucket(issues[..|issues| - 1], sev) + [last]
      else Bucket(issues[..|issues| - 1], sev)
  }

  /** The positions, ascending, of the issues of one severity. */
  function Positions(issues: seq<Issue>, sev: Severity): (p: seq<int>)
    ensures forall k :: 0 <= k < |p| ==> 0 <= p[k] < |issues| && issues[p[k]].severity == sev
    ensures forall i :: 0 <= i < |issues| && issues[i].severity == sev ==> i in p
    ensures forall k, l :: 0 <= k < l < |p| ==> p[k] < p[l]
  {
    if |issues| == 0 then []
    else
      var n := |issues| - 1;
      var p := Positions(issues[..n], sev);
      if issues[n].severity == sev then p + [n] else p
  }

  /**
   * A bucket lists, in order, exactly the issues at the positions of that
   * severity: the k-th issue of the bucket is the issue at the k-th such position.
   */
  lemma {:induction false} BucketInOrder(issues: seq<Issue>, sev: Severity)
    ensures |Bucket(issues, sev)| == |Positions(issues, sev)|
    ensures forall k :: 0 <= k < |Positions(issues, sev)| ==>
              Bucket(issues, sev)[k] == issues[Positions(issues, sev)[k]]
  {
    if |issues| > 0 {
      var n := |issues| - 1;
      var init := issues[..n];
      BucketInOrder(init, sev);
      BucketStep(issues, sev);
      PositionsStep(issues, sev);
      var b, p := Bucket(init, sev), Positions(init, sev);
      forall k | 0 <= k < |Positions(issues, sev)|
        ensures Bucket(issues, sev)[k] == issues[Positions(issues, sev)[k]]
      {
        if k < |p| {
          assert Bucket(issues, sev)[k] == b[k] && Positions(issues, sev)[k] == p[k];
          assert init[p[k]] == issues[p[k]];
        }
      }
    }
  }

  /** A bucket grows by the last issue exactly when that issue has its severity. */
  lemma BucketStep(issues: seq<Issue>, sev: Severity)
    requires |issues| > 0
    ensures var n := |issues| - 1;
            Bucket(issues, sev) == Bucket(issues[..n], sev) + (if issues[n].severity == sev then [issues[n]] else [])
  {
  }

  /** The positions grow by the last index exactly when that issue has the severity. */
  lemma PositionsStep(issues: seq<Issue>, sev: Severity)
    requires |issues| > 0
    ensures var n := |issues| - 1;
            Positions(issues, sev) == Positions(issues[..n], sev) + (if issues[n].severity == sev then [n] else [])
  {
  }

  /** A non-empty sequence is its prefix followed by its last element. */
  lemma SnocSplit(s: seq<Issue>)
    requires |s| > 0
    ensures s == s[..|s| - 1] + [s[|s| - 1]]
  {
  }

  /** Appending an issue puts it in the bucket of its own severity and in no other. */
  lemma BucketSnoc(init: seq<Issue>, x: Issue, sev: Severity)
    ensures multiset(Bucket(init + [x], sev))
            == multiset(Bucket(init, sev)) + (if x.severity == sev then multiset{x} else multiset{})
  {
    assert (init + [x])[..|init|] == init;
  }

  /**
   * Adding an issue to the bucket of its own severity keeps the three
   * buckets covering the issues once the issue is added to those too.
   */
  lemma AddToOneBucket(h: multiset<Issue>, m: multiset<Issue>, l: multiset<Issue>,
                       h': multiset<Issue>, m': multiset<Issue>, l': multiset<Issue>, x: Issue,
                       all: multiset<Issue>)
    requires h + m + l == all
    requires h' == h + (if x.severity == High then multiset{x} else multiset{})
    requires m' == m + (if x.severity == Medium then multiset{x} else multiset{})
    requires l' == l + (if x.severity == Low then multiset{x} else multiset{})
    ensures h' + m' + l' == all + multiset{x}
  {
    match x.severity
    case High =>
    case Medium =>
    case Low =>
  }

  /** The three buckets keep covering the issues when one more is appended. */
  lemma BucketsCoverStep(init: seq<Issue>, x: Issue)
    requires multiset(Bucket(init, High)) + multiset(Bucket(init, Medium)) + multiset(Bucket(init, Low))
             == multiset(init)
    ensures multiset(Bucket(init + [x], High)) + multiset(Bucket(init + [x], Medium))
            + multiset(Bucket(init + [x], Low)) == multiset(init + [x])
  {
    BucketSnoc(init, x, High);
    BucketSnoc(init, x, Medium);
    BucketSnoc(init, x, Low);
    AddToOneBucket(multiset(Bucket(init, High)), multiset(Bucket(init, Medium)), multiset(Bucket(init, Low)),
                   multiset(Bucket(init + [x], High)), multiset(Bucket(init + [x], Medium)),
                   multiset(Bucket(init + [x], Low)), x, multiset(init));
  }

  /** Together, the three buckets hold every issue exactly as often as the issues do. */
  lemma {:induction false} BucketsCover(issues: seq<Issue>)
    ensures multiset(Bucket(issues, High)) + multiset(Bucket(issues, Medium)) + multiset(Bucket(issues, Low))
            == multiset(issues)
  {
    if |issues| > 0 {
      var n := |issues| - 1;
      BucketsCover(issues[..n]);
      BucketsCoverStep(issues[..n], issues[n]);
      SnocSplit(issues);
    }
  }

  /** The three buckets split the issues: their sizes add up and their contents are the issues. */
  lemma BucketsPartition(issues: seq<Issue>)
    ensures |Bucket(issues, High)| + |Bucket(issues, Medium)| + |Bucket(issues, Low)| == |issues|
    ensures multiset(Bucket(issues, High)) + multiset(Bucket(issues, Medium)) + multiset(Bucket(issues, Low))
            == multiset(issues)
  {
    BucketsCover(issues);
    assert |multiset(Bucket(issues, High)) + multiset(Bucket(issues, Medium)) + multiset(Bucket(issues, Low))|
           == |multiset(issues)|;
  }

  /** No issue sits in two buckets. */
  lemma BucketsDisjoint(issues: seq<Issue>, a: Severity, b: Severity)
    requires a != b
    ensures multiset(Bucket(issues, a)) !! multiset(Bucket(issues, b))
  {
  }

  /** The severities `shown` selects, in the order high, medium, low. */
  function InDisplayOrder(shown: Severity -> bool): (r: seq<Severity>)
    ensures forall sev :: sev in r <==> shown(sev)
    ensures forall i, j :: 0 <= i < j < |r| ==> r[i].DisplayRank() < r[j].DisplayRank()
  {
    var r := (if shown(High) then [High] else [])
             + (if shown(Medium) then [Medium] else [])
             + (if shown(Low) then [Low] else []);
    assert forall sev :: sev in r <==> shown(sev) by {
      forall sev: Severity
        ensures sev in r <==> shown(sev)
      {
        assert sev == High || sev == Medium || sev == Low;
      }
    }
    r
  }

  /** A bucket is non-empty exactly when some issue has its severity. */
  lemma BucketNonEmptyIffPresent(issues: seq<Issue>)
    ensures forall sev :: |Bucket(issues, sev)| > 0 <==> exists i :: 0 <= i < |issues| && issues[i].severity == sev
  {
    forall sev: Severity
      ensures |Bucket(issues, sev)| > 0 <==> exists i :: 0 <= i < |issues| && issues[i].severity == sev
    {
      var b := Bucket(issues, sev);
      if |b| > 0 {
        assert b[0] in b;
      }
      if exists i :: 0 <= i < |issues| && issues[i].severity == sev {
        var i :| 0 <= i < |issues| && issues[i].severity == sev;
        assert issues[i] in b;
      }
    }
  }

  /** The severities whose bucket has at least one issue: the sections a view renders. */
  function NonEmptySections(issues: seq<Issue>): (r: seq<Severity>)
    ensures forall sev :: sev in r <==> |Bucket(issues, sev)| > 0
    ensures forall i, j :: 0 <= i < j < |r| ==> r[i].DisplayRank() < r[j].DisplayRank()
  {
    InDisplayOrder(sev => |Bucket(issues, sev)| > 0)
  }

  /** One rendered group: a severity and its non-empty bucket. */
  datatype Section = Section(severity: Severity, issues: seq<Issue>)

  /**
   * The groups a view renders: only non-empty buckets, each holding its
   * bucket, high before medium before low.
   */
  function Sections(issues: seq<Issue>): (r: seq<Section>)
    ensures forall k :: 0 <= k < |r| ==> r[k].issues == Bucket(issues, r[k].severity) && |r[k].issues| > 0
    ensures forall k, l :: 0 <= k < l < |r| ==> r[k].severity.DisplayRank() < r[l].severity.DisplayRank()
    ensures forall sev :: (exists k :: 0 <= k < |r| && r[k].severity == sev) <==> |Bucket(issues, sev)| > 0
  {
    var shown := NonEmptySections(issues);
    var r := seq(|shown|, k requires 0 <= k < |shown| => Section(shown[k], Bucket(issues, shown[k])));
    assert forall k :: 0 <= k < |r| ==> r[k].severity == shown[k];
    r
  }

  /** Every issue is rendered, in the group of its own severity. */
  lemma SectionsCoverIssues(issues: seq<Issue>, i: int)
    requires 0 <= i < |issues|
    ensures exists k :: 0 <= k < |Sections(issues)| && Sections(issues)[k].severity == issues[i].severity
                        && issues[i] in Sections(issues)[k].issues
  {
    var r := Sections(issues);
    var sev := issues[i].severity;
    assert issues[i] in Bucket(issues, sev);
    var k :| 0 <= k < |r| && r[k].severity == sev;
  }
}

=== FILE: summary_section.dfy ===
/** The summary card of the accessibility page (src/components/accessibility/SummarySection.tsx). */
module SummarySection {
  import opened Types
  import opened SeverityBuckets
  import Compliance

  /** The severity rows shown: those with a positive count, in high, medium, low order. */
  function VisibleRows(summary: Summary): (r: seq<Severity>)
    ensures forall sev :: sev in r <==> summary.Count(sev) > 0
    ensures forall i, j :: 0 <= i < j < |r| ==> r[i].DisplayRank() < r[j].DisplayRank()
  {
    InDisplayOrder(sev => summary.Count(sev) > 0)
  }

  /** Whether the closing sentence asks for immediate attention: the card compares the level's label. */
  predicate UrgentMessage(score: int): (urgent: bool)
    ensures var level := Compliance.GetComplianceLevel(score);
            urgent <==> level == Compliance.Critico || level == Compliance.Mejorable
  {
    var level := Compliance.GetComplianceLevel(score);
    Compliance.LabelNamesLevel(level);
    level.Label() == "Crítico" || level.Label() == "Mejorable"
  }

  /** The urgent sentence appears exactly for scores below 70. */
  lemma UrgentIffBelowSeventy(score: int)
    ensures UrgentMessage(score) <==> score < 70
  {
  }

  const UrgentSentence: string :=
    " Se requiere atención inmediata para mejorar la experiencia de usuarios con discapacidades."
  const ReviewSentence: string :=
    " Se recomienda revisar y corregir los problemas identificados para garantizar una mejor experiencia."

  /** The sentence that closes the card: the urgent one exactly below 70, the review one otherwise. */
  function ClosingSentence(score: int): (s: string)
    ensures s == UrgentSentence <==> score < 70
    ensures s == ReviewSentence <==> score >= 70
  {
    UrgentIffBelowSeventy(score);
    assert |UrgentSentence| != |ReviewSentence|;
    if UrgentMessage(score) then UrgentSentence else ReviewSentence
  }

  /** The total the card prints, and the rows that add up to it. */
  lemma TotalIssuesIsRowSum(summary: Summary)
    requires summary.high >= 0 && summary.medium >= 0 && summary.low >= 0
    ensures summary.Total() == 0 <==> |VisibleRows(summary)| == 0
  {
    if summary.Total() != 0 {
      assert summary.Count(High) > 0 || summary.Count(Medium) > 0 || summary.Count(Low) > 0;
    }
  }
}

=== FILE: text.dfy ===
/**
 * String helpers the report pipeline relies on: ASCII case mapping,
 * prefix tests and the decimal rendering of integers that JavaScript
 * template literals perform.
 */
module Text {

  /** Lower-case one character; only the ASCII letters A-Z change. */
  function LowerChar(c: char): char {
    if 'A' <= c <= 'Z' then (c as int + 32) as char else c
  }

  /** Upper-case one character; only the ASCII letters a-z change. */
  function UpperChar(c: char): char {
    if 'a' <= c <= 'z' then (c as int - 32) as char else c
  }

  function ToLower(s: string): (r: string)
    ensures |r| == |s|
    ensures forall i :: 0 <= i < |s| ==> r[i] == LowerChar(s[i])
  {
    seq(|s|, i requires 0 <= i < |s| => LowerChar(s[i]))
  }

  function ToUpper(s: string): (r: string)
    ensures |r| == |s|
    ensures forall i :: 0 <= i < |s| ==> r[i] == UpperChar(s[i])
  {
    seq(|s|, i requires 0 <= i < |s| => UpperChar(s[i]))
  }

  /** Lower-casing forgets whatever upper-casing did. */
  lemma ToLowerOfToUpper(s: string)
    ensures ToLower(ToUpper(s)) == ToLower(s)
  {
  }

  predicate StartsWith(s: string, prefix: string) {
    |prefix| <= |s| && s[..|prefix|] == prefix
  }

  /** The decimal digit character for 0..9. */
  function DigitChar(d: int): (c: char)
    requires 0 <= d < 10
    ensures '0' <= c <= '9'
  {
    ('0' as int + d) as char
  }

  /** Decimal rendering of a natural number, no leading zeros. */
  function NatToString(n: nat): (s: string)
    ensures |s| >= 1
    ensures forall i :: 0 <= i < |s| ==> '0' <= s[i] <= '9'
    ensures s[0] == '0' ==> n == 0
    decreases n
  {
    if n < 10 then [DigitChar(n)] else NatToString(n / 10) + [DigitChar(n % 10)]
  }

  /** Decimal rendering of an integer, as `${n}` shows it: a minus sign, then the magnitude. */
  function IntToString(n: int): (s: string)
    ensures |s| >= 1
    ensures s[0] == '-' <==> n < 0
  {
    if n < 0 then "-" + NatToString(-n) else NatToString(n)
  }

  /** The value of a string of decimal digits (the reading back of NatToString). */
  function ParseDecimal(s: string): int
    decreases |s|
  {
    if |s| == 0 then 0
    else ParseDecimal(s[..|s| - 1]) * 10 + (s[|s| - 1] as int - '0' as int)
  }

  /** Reading back a rendered natural number gives the number. */
  lemma {:induction false} ParseNatToString(n: nat)
    ensures ParseDecimal(NatToString(n)) == n
    decreases n
  {
    if n >= 10 {
      var s := NatToString(n);
      ParseNatToString(n / 10);
      assert s[..|s| - 1] == NatToString(n / 10);
    }
  }
}

=== FILE: types.dfy ===
/**
 * The data the report pipeline passes around: the analysis API's response
 * and the scan result the dashboard renders (src/lib/types.ts).
 */
module Types {
  import opened Wrappers

  /** The three severities the dashboard shows. */
  datatype Severity = High | Medium | Low {
    /** The lower-case tag the front end stores ("high", "medium", "low"). */
    function Tag(): string {
      match this
      case High => "high"
      case Medium => "medium"
      case Low => "low"
    }

    /** Position in the views' fixed high, medium, low order. */
    function DisplayRank(): nat {
      match this
      case High => 0
      case Medium => 1
      case Low => 2
    }

    /** The Spanish adjective the views print ("Alta", "Media", "Baja"). */
    function Adjective(): string {
      match this
      case High => "Alta"
      case Medium => "Media"
      case Low => "Baja"
    }
  }

  /** The four impact labels of the rule engine. */
  datatype Impact = Minor | Moderate | Serious | Critical {
    /** The exact (lower-case) label the rule engine emits. */
    function Label(): string {
      match this
      case Minor => "minor"
      case Moderate => "moderate"
      case Serious => "serious"
      case Critical => "critical"
    }
  }

  /** The impact an exact-case label names, if any. */
  function ParseImpact(s: string): (r: Option<Impact>)
    ensures r.Some? ==> r.value.Label() == s
    ensures forall i: Impact :: i.Label() == s ==> r == Some(i)
  {
    if s == "minor" then Some(Minor)
    else if s == "moderate" then Some(Moderate)
    else if s == "serious" then Some(Serious)
    else if s == "critical" then Some(Critical)
    else None
  }

  datatype ApiNodeDetails = ApiNodeDetails(
    tag: string,
    location: string,
    textContent: string,
    attributes: string)

  datatype ApiAffectedNode = ApiAffectedNode(html: string, nodeDetails: ApiNodeDetails)

  /**
   * One violation as the analysis API reports it. `impact` is kept as the
   * raw string: the front end lower-cases it for the severity but looks it
   * up verbatim for the penalty, so labels outside the four are possible.
   */
  datatype ApiViolation = ApiViolation(
    description: string,
    impact: string,
    nodes: int,
    wcagReference: string,
    suggestedFix: string,
    affectedNodes: seq<ApiAffectedNode>)

  datatype ApiRecommendation = ApiRecommendation(
    issue: string,
    impact: string,
    recommendation: string,
    priority: int,
    wcagReference: string,
    affectedElements: int,
    remediationComplexity: string)

  /** Per-impact counts; `None` is a field the response left out. */
  datatype ViolationsByImpact = ViolationsByImpact(
    minor: Option<int>,
    serious: Option<int>,
    moderate: Option<int>)

  datatype ApiSummary = ApiSummary(totalViolations: int, violationsByImpact: ViolationsByImpact)

  datatype Analysis = Analysis(violations: seq<ApiViolation>, recommendations: seq<ApiRecommendation>)

  datatype ApiData = ApiData(url: string, timestamp: string, analysis: Analysis, summary: ApiSummary)

  datatype ApiMetadata = ApiMetadata(scanDuration: string, version: string)

  datatype ApiResponse = ApiResponse(status: string, data: ApiData, metadata: ApiMetadata)

  datatype Issue = Issue(
    id: string,
    title: string,
    description: string,
    severity: Severity,
    wcagReference: string,
    solution: string)

  /** The per-severity counts a scan result carries. */
  datatype Summary = Summary(high: int, medium: int, low: int) {
    function Count(sev: Severity): int {
      match sev
      case High => high
      case Medium => medium
      case Low => low
    }

    /** The sum of the high, medium and low counts: the issue total the views show. */
    function Total(): int {
      high + medium + low
    }
  }

  datatype ScanResult = ScanResult(
    score: int,
    issues: seq<Issue>,
    summary: Summary,
    recommendations: map<string, string>)
}

=== FILE: wrappers.dfy ===
/** Optional values: the model's reading of JavaScript's `undefined`/`null`. */
module Wrappers {

  datatype Option<+T> = None | Some(value: T) {

    /** The value, or `default` when absent. */
    function GetOr(default: T): T {
      match this
      case Some(v) => v
      case None => default
    }
  }
}
